=== FILE: README.md ===
# Trajectory smoothing for video stabilisation, modelled in Dafny

Two command-line programs stabilise shaky video: `cpp-console/dev/stb-shake-sample.cpp`
(smoothing radius 30) and `cpp-console/videostb-camshake.cpp` (smoothing radius 50).
Both work in the same way:

1. **Pass 1.** Estimate the rigid motion `(dx, dy, da)` from the previous frame to each
   new frame, and record the estimates that succeed.
2. **Accumulate.** A running sum of the recorded motions gives the camera trajectory.
3. **Smooth.** Each trajectory point becomes the mean over a symmetric window of radius R.
   The window is truncated at both ends of the sequence.
4. **Re-derive.** Each new motion is `motion[i] + (smoothed[i] - trajectory[i])`.
5. **Warp.** Each frame is warped by its new motion.

The model works over exact reals. The programs use `double`, so every equality proved
here holds in them only up to rounding.

Modules:

- `Geometry` (`geometry.dfy`): the `Motion` record (`TransformParam` / `Transformation`)
  and the `Pose` record (`Trajectory`). Also the componentwise sums, the mean, and the
  reference definition `Total`, the sum of a motion list starting from the origin.
- `Window` (`window.dfy`): the window bounds `[max(0, i-R), min(N-1, i+R)]`, and the
  window guard exactly as written. `i + j` adds a 64-bit unsigned `i` to a 32-bit signed
  `j`, so the sum wraps modulo 2^64.
- `Smoothing` (`smoothing.dfy`): steps 2 to 4. `Accumulate`, `Smooth` and `Rederive` are
  functions that say what each pass computes. The loop methods (`AccumulateLoop`,
  `WindowScan`, `SmoothLoop`, `RederiveLoop`) follow the programs' loops: running
  accumulators, the wrapped guard and an integer count. Their contracts tie them to the
  functions. The module also holds the lemmas about the whole pipeline.
- `Recording` (`recording.dfy`): pass 1. The estimator is a parameter
  `(F, F) -> Option<Motion>` over opaque frames `F`. `kept` holds the indices of the frames
  where an estimate succeeded; `videostb-camshake` writes exactly these frames to its
  temporary video.
- `Programs` (`programs.dfy`): both programs end to end, from the input frames to the list
  of (frame, new motion) pairs passed to the warp. This is where the index bounds of the
  warp loop are checked.
- `Wrappers` (`wrappers.dfy`): `Option`.

Where the programs' own comments and their code disagree, the model follows the code:

- The step-4 comment (`cpp-console/dev/stb-shake-sample.cpp:18` and `:205`) says the new
  motions are chosen so that their trajectory ends up the same as the smoothed trajectory.
  The code does not achieve this (see Findings).
- The comment on the failure path (`cpp-console/dev/stb-shake-sample.cpp:118`) says the
  last known good transform is used. The code substitutes nothing: it `continue`s, so the
  pair is skipped and `prev` stays where it is.

A consequence of the truncated window worth stating on its own: when every motion is the
same, smoothing leaves a frame unchanged only if it is at least R away from both ends
(`Smoothing.ConstantMotionInteriorUnchanged`). Frames nearer an end see a truncated window
and are moved (`Smoothing.UnitStepsCorrections`).

## Model

The reference functions `Smoothing.Accumulate`, `Smoothing.Smooth`, `Smoothing.Rederive`,
`Smoothing.Stabilize` and `Recording.Record` define what each pass computes. They carry no
contract of their own. The loop rows below (`AccumulateLoop`, `SmoothLoop`, `RederiveLoop`,
`StabilizeLoops`) tie the programs' loops to them, and the lemma rows state properties of
them.

| member | source | states |
|---|---|---|
| `Window.GuardIsIndexRange` | cpp-console/dev/stb-shake-sample.cpp:187 | The guard `i+j >= 0 && i+j < size()` on the wrapped unsigned sum holds exactly when `0 <= i + j < N` over the integers (for N < 2^63 and a 32-bit `j`). The `>= 0` half is vacuous, and a negative `i + j` wraps to a value of at least 2^63 that fails `< N`. |
| `Window.GuardSelectsWindow` | cpp-console/dev/stb-shake-sample.cpp:186-193 | The indices `i + j`, for the offsets `j` in `-R..R` that pass the wrapped guard, form exactly the set `[max(0, i-R), min(N-1, i+R)]`. |
| `Smoothing.AccumulateLoop` | cpp-console/dev/stb-shake-sample.cpp:159-173 | The trajectory has one entry per recorded motion. Entry i is the componentwise sum of `dx`, `dy`, `da` over motions 0..i, starting from zero. |
| `Smoothing.WindowScan` | cpp-console/dev/stb-shake-sample.cpp:181-194 | The inner loop over `j = -R..R` counts `min(N-1, i+R) - max(0, i-R) + 1` entries. That count is at least 1, so the divisions by `count` never divide by zero. It is at most `2R+1`, which fits the 32-bit `int count`. The loop sums exactly the trajectory entries of that window, with x, y and a summed separately. |
| `Smoothing.SmoothLoop` | cpp-console/dev/stb-shake-sample.cpp:178-203 | The smoothed trajectory has length N. Entry i is the mean of the trajectory over the truncated window `[max(0, i-R), min(N-1, i+R)]`, each coordinate averaged on its own. |
| `Smoothing.RederiveLoop` | cpp-console/dev/stb-shake-sample.cpp:206-230 | The new motions have length N. The running sum recomputed in step 4 agrees with the step-2 trajectory, so new motion i is motion i plus (smoothed i minus trajectory i). |
| `Smoothing.ZeroRadiusIsIdentity` | cpp-console/dev/stb-shake-sample.cpp:180-227 | With radius 0, the smoothed trajectory equals the trajectory, and every new motion equals its original motion. |
| `Smoothing.WideRadiusFlattens` | cpp-console/videostb-camshake.cpp:182-204 | When R >= N-1, every window is the whole sequence, so every smoothed entry is the mean of the entire trajectory. |
| `Smoothing.ConstantMotionInteriorUnchanged` | cpp-console/videostb-camshake.cpp:170-228 | Suppose every motion is the same. Then a frame at least R away from both ends keeps its trajectory pose after smoothing, and its new motion equals its original motion. |
| `Smoothing.ConstantMotionTrajectory` | cpp-console/videostb-camshake.cpp:170-177 | If every motion is m, the running sum after n motions is m taken n times. |
| `Smoothing.RederivedRunningSum` | cpp-console/dev/stb-shake-sample.cpp:209-227 | The running sum of the first i+1 new motions equals smoothed pose i plus the sum of the corrections of frames 0..i-1. |
| `Smoothing.RederivedMatchesSmoothedIff` | cpp-console/dev/stb-shake-sample.cpp:205-227 | The running sum of the new motions reaches smoothed pose i if and only if the corrections of the earlier frames sum to zero. |
| `Smoothing.RederiveExactTelescopes` | cpp-console/dev/stb-shake-sample.cpp:205 | For the corrected new motions (smoothed i minus smoothed i-1), the running sum of the first i+1 equals smoothed pose i. This is the property the step-4 comment asks for. |
| `Smoothing.RederiveExactDropsPreviousCorrection` | cpp-console/dev/stb-shake-sample.cpp:218-225 | The corrected new motion i differs from the programs' new motion i only by the correction of frame i-1. At frame 0 the two are equal. |
| `Smoothing.UnitStepsTrajectory` | cpp-console/dev/stb-shake-sample.cpp:165-173 | Three unit steps along x accumulate to the trajectory 1, 2, 3. |
| `Smoothing.UnitStepsSmoothed` | cpp-console/dev/stb-shake-sample.cpp:180-200 | With radius 1, the trajectory 1, 2, 3 smooths to 1.5, 2, 2.5, because both end windows are truncated to two frames. |
| `Smoothing.UnitStepsCorrections` | cpp-console/dev/stb-shake-sample.cpp:218-221 | For that example, the corrections (smoothed minus trajectory) are 0.5, 0 and -0.5. |
| `Smoothing.UnitStepsRederivedDrift` | cpp-console/dev/stb-shake-sample.cpp:209-227 | For three unit steps and radius 1, the running sum of the programs' new motions at frame 1 is 2.5, while the smoothed pose there is 2. |
| `Recording.RecordFrom` | cpp-console/dev/stb-shake-sample.cpp:80-154 | Pass 1 records exactly one motion per kept frame, and never more than one per frame read. |
| `Recording.RecordFromKeptInOrder` | cpp-console/videostb-camshake.cpp:122-153 | The kept frames (the frames written to the temporary video) lie after the first frame and are strictly increasing. |
| `Recording.RecordFromRecordsEstimates` | cpp-console/dev/stb-shake-sample.cpp:116-150 | Each recorded motion is the successful estimate from the frame then held in `prev` (the last kept frame, or the first frame) to its own frame. So `prev` advances only on success. |
| `Recording.RecordFromSkipsFailures` | cpp-console/dev/stb-shake-sample.cpp:120-124 | Every frame that is not kept is one whose estimate from the frame held in `prev` failed. A failed estimate adds no entry. |
| `Recording.FullRecordIff` | cpp-console/dev/stb-shake-sample.cpp:80-154 | For a video of N frames, pass 1 records at most N-1 motions. It records exactly N-1 if and only if every estimate between neighbouring frames succeeds. |
| `Recording.UnsetNeverRecorded` | cpp-console/videostb-camshake.cpp:118-153 | The values `dx = dy = da = -1` set before the branch never reach the list unless the estimator itself produced them. Only successful estimates are pushed. |
| `Recording.TempVideoMatchesTransforms` | cpp-console/videostb-camshake.cpp:122-153 | The temporary video holds exactly as many frames as there are recorded motions, because a frame is written exactly when a motion is pushed. |
| `Programs.WarpSteps` | cpp-console/dev/stb-shake-sample.cpp:239-245 | The warp loop reaches the motion lookup `min(max_frames - 1, frames available)` times (zero when `max_frames <= 1`). |
| `Programs.WarpLoop` | cpp-console/dev/stb-shake-sample.cpp:239-254 | Frame k of the video read by the loop is paired with new motion k, for every k the loop reaches. The requires makes every lookup in bounds. |
| `Programs.StabilizeLoops` | cpp-console/videostb-camshake.cpp:161-228 | Steps 2 to 4 as loops produce N new motions, equal to re-deriving from the truncated-window smoothing of the running sum. |
| `Programs.SampleProgram` | cpp-console/dev/stb-shake-sample.cpp:156-254 | `stb-shake-sample` pairs input frame k with new motion k (radius 30), for the first `min(max_frames - 1, N frames)` frames. It is callable only when that many motions were recorded. |
| `Programs.CamshakeProgram` | cpp-console/videostb-camshake.cpp:249-277 | `videostb-camshake` pairs temporary-video frame k (the k-th kept frame) with new motion k (radius 50). Every lookup index is below N for any estimator and any reported frame count. |
| `Programs.SampleWarpInBoundsIff` | cpp-console/dev/stb-shake-sample.cpp:240-254 | When `max_frames` is the true frame count, the warp loop of `stb-shake-sample` stays in bounds if and only if no estimate failed. |
| `Programs.SampleWarpOverrun` | cpp-console/dev/stb-shake-sample.cpp:120-124 | Take a three-frame video whose first estimate fails. Only one motion is recorded, yet the warp loop looks up index 1. |
| `Programs.CamshakeWarpInBounds` | cpp-console/videostb-camshake.cpp:250-264 | The final pass reads the temporary video, which holds one frame per recorded motion. So its lookups stay in bounds for any estimator and any `max_frames`. |

## Findings

| source | as written | input that shows it | evidently intended | confidence | as-written member | corrected member |
|---|---|---|---|---|---|---|
| cpp-console/dev/stb-shake-sample.cpp:209-227 | New motion i is `motion[i] + (smoothed[i] - trajectory[i])`. Its running sum is smoothed i plus all earlier corrections, not smoothed i. The same code is at cpp-console/videostb-camshake.cpp:213-228. | Three unit steps along x, radius 1: at frame 1 the running sum of the new motions is 2.5, but the smoothed pose is 2. | The step-4 comment (line 205) asks that the trajectory of the new motions be the smoothed trajectory, for example new motion i = smoothed i - smoothed i-1. | medium (the comment states the intent; the warp applies each motion to its own frame); not executed | `Smoothing.UnitStepsRederivedDrift` | `Smoothing.RederiveExactTelescopes` |
| cpp-console/dev/stb-shake-sample.cpp:240-254 | A failed estimate is skipped (`continue`, lines 120-124). The warp loop still reads `new_prev_to_cur_transform[k]` for every `k < max_frames - 1`, frame by frame over the original video. | Three frames whose first estimate fails: one motion is recorded, yet index 1 is read. | Warp only frames that have a recorded motion, as `videostb-camshake.cpp` does through its temporary video. | high; not executed | `Programs.SampleWarpOverrun` | `Programs.CamshakeWarpInBounds` |

The program models (`Programs.SampleProgram`, `Programs.CamshakeProgram`) keep step 4 as
the code computes it (`Smoothing.Rederive`), because that is what both programs run.
`Smoothing.RederiveExact` is the corrected definition; the property the step-4 comment
asks for is proved about it. `Programs.SampleProgram` states the index bound of its warp
loop as a precondition. `Programs.CamshakeProgram` needs no such precondition.

## Left out

- Feature detection, optical flow and `estimateRigidTransform` are library calls. Their
  combined result for a frame pair is the estimator parameter `(F, F) -> Option<Motion>`.
- `atan2`, when a motion is decomposed from the 2x3 matrix, and `cos`/`sin`, when the
  matrix is rebuilt: a `Motion` holds the angle directly. The warp is modelled as the
  (frame, motion) pair it receives.
- `warpAffine`, cropping, `resize`, the side-by-side canvas, `imshow`, `waitKey`, video
  capture and writing, output file names, and the `exit`/`assert` paths when a file cannot
  be opened: these are I/O or library work.
- IEEE `double` rounding: all arithmetic is exact over `real`.
- Reading the temporary video back (`cpp-console/videostb-camshake.cpp:229-251`): the
  model assumes it returns exactly the frames written at line 134, in the same order.
  `Programs.CamshakeProgram` and `Programs.CamshakeWarpInBounds` pair the k-th decoded frame
  with `frames[kept[k]]`. The file is H.264-encoded, so the decoded pixels differ from the
  originals (codec chosen at line 61). The model does not look at pixels; the in-bounds result
  rests only on the number of frames read back.
- An empty input video: `cvtColor` on the empty first frame fails inside the library, so
  `Recording.Record` requires at least one frame.
- The optical-flow statistics `sumOpticalFlow` / `avgOpticalFlow` and the frame counter `k`
  of pass 1 only feed log output.
- `last_T.copyTo(T)` on the failure path and `T.copyTo(last_T)` on the success path:
  `last_T` is never read for the result. In `stb-shake-sample` the copy just before
  `continue` is dead.
- Radii above 2^30 - 1: `count` and `j` are 32-bit `int`, and a window of `2R+1` frames
  would overflow `count`, which is undefined behaviour. `Smoothing.WindowScan`,
  `Smoothing.SmoothLoop` and `Programs.StabilizeLoops` therefore require
  `R <= 2^30 - 1` (`Window.RadiusLimit`), and `WindowScan` proves `count <= 2R+1 <= 2^31 - 1`.
  The programs use R = 30 and R = 50.
- How far a single outlier motion spreads after smoothing (a bound on the largest
  correction) is not modelled. It is a bound on a maximum over floating-point values,
  not exact algebra.
- `cpp-console/dev/videostb.cpp`, the root `videostb-camshake.cpp` and
  `app/src/main/java/me/cv/unstutter/MainActivity.java` are not part of this model. They
  hold library-bound corner drawing and matrix products, a copy of pass 1 without
  smoothing, and Android capture code.

=== FILE: geometry.dfy ===
/** The two records the stabiliser works on and the componentwise arithmetic on them.
    Coordinates are exact reals: the programs use `double`, so every equality proved
    here holds there only up to rounding. */
module Geometry {

  /** A frame-to-frame rigid motion: translation (dx, dy) and rotation da
      (`TransformParam` in one program, `Transformation` in the other). */
  datatype Motion = Motion(dx: real, dy: real, da: real)

  /** A cumulative camera position x, y and angle a (`Trajectory`). */
  datatype Pose = Pose(x: real, y: real, a: real)

  /** The starting point of every running sum (`a = x = y = 0`). */
  const Origin: Pose := Pose(0.0, 0.0, 0.0)

  /** One step of a running sum: `x += dx; y += dy; a += da`. */
  function Advance(p: Pose, m: Motion): Pose
  {
    Pose(p.x + m.dx, p.y + m.dy, p.a + m.da)
  }

  /** One step of a window sum: `sum_x += t.x; sum_y += t.y; sum_a += t.a`. */
  function Plus(p: Pose, q: Pose): Pose
  {
    Pose(p.x + q.x, p.y + q.y, p.a + q.a)
  }

  /** `sum / count` on each coordinate; the integer count is converted to floating point. */
  function Divide(p: Pose, count: int): Pose
    requires count != 0
  {
    Pose(p.x / count as real, p.y / count as real, p.a / count as real)
  }

  /** The difference `target - p` as a motion (`diff_x`, `diff_y`, `diff_a`). */
  function Gap(target: Pose, p: Pose): Motion
  {
    Motion(target.x - p.x, target.y - p.y, target.a - p.a)
  }

  /** Adding a correction to a motion: `dx + diff_x`, `dy + diff_y`, `da + diff_a`. */
  function Compose(m: Motion, d: Motion): Motion
  {
    Motion(m.dx + d.dx, m.dy + d.dy, m.da + d.da)
  }

  /** The componentwise sum of a sequence of motions, starting from the origin. */
  function Total(ms: seq<Motion>): Pose
  {
    if |ms| == 0 then Origin else Advance(Total(ms[..|ms| - 1]), ms[|ms| - 1])
  }

  /** The componentwise sum of a sequence of poses. */
  function PoseSum(ps: seq<Pose>): Pose
  {
    if |ps| == 0 then Origin else Plus(PoseSum(ps[..|ps| - 1]), ps[|ps| - 1])
  }

  /** The arithmetic mean of a non-empty sequence of poses, each coordinate on its own. */
  function Mean(ps: seq<Pose>): Pose
    requires |ps| > 0
  {
    Divide(PoseSum(ps), |ps|)
  }

  /** Extending a prefix by one element adds that element to the running sum. */
  lemma TotalOfPrefix(ms: seq<Motion>, i: nat)
    requires i < |ms|
    ensures Total(ms[..i + 1]) == Advance(Total(ms[..i]), ms[i])
  {
    assert ms[..i + 1][..i] == ms[..i];
  }

  /** The sum of a single motion is that motion taken from the origin. */
  lemma TotalOfOne(ms: seq<Motion>)
    requires |ms| == 1
    ensures Total(ms) == Advance(Origin, ms[0])
  {
    assert ms[..0] == [];
  }

  /** Extending a slice by one element adds that element to the window sum. */
  lemma PoseSumOfSlice(ps: seq<Pose>, lo: nat, hi: nat)
    requires lo < hi <= |ps|
    ensures PoseSum(ps[lo..hi]) == Plus(PoseSum(ps[lo..hi - 1]), ps[hi - 1])
  {
    assert ps[lo..hi][..hi - 1 - lo] == ps[lo..hi - 1];
  }

  /** The mean of a single pose is that pose. */
  lemma MeanOfOne(ps: seq<Pose>)
    requires |ps| == 1
    ensures Mean(ps) == ps[0]
  {
    assert ps[..0] == [];
    assert PoseSum(ps) == Plus(Origin, ps[0]);
  }
}

=== FILE: programs.dfy ===
/** The two programs end to end, from the frames of the input video to the list of
    (frame, transform) pairs handed to the affine warp. The warp itself, the cropping
    and the video writing are library work and are not modelled; what is modelled is
    which frame meets which new motion, and whether the index used to look that motion
    up stays inside the list. */
module Programs {

  import opened Wrappers
  import opened Geometry
  import opened Window
  import opened Smoothing
  import opened Recording

  /** How many iterations of the warp loop reach the motion lookup. The loop runs while
      `k < max_frames - 1` and stops at the first frame it cannot read. `max_frames` is
      the frame count reported by the container, which the program does not check. */
  function WarpSteps(maxFrames: int, available: nat): (steps: nat)
    ensures steps <= available
    ensures maxFrames <= 1 ==> steps == 0
    ensures maxFrames > 1 ==> steps <= maxFrames - 1 && (steps == available || steps == maxFrames - 1)
  {
    if maxFrames - 1 <= 0 then 0
    else if maxFrames - 1 < available then maxFrames - 1
    else available
  }

  /** The warp loop: frame k of `video` is paired with `corrected[k]`. Reading past the
      end of `corrected` is undefined behaviour in the programs, so the lookups the loop
      reaches must be in bounds. */
  method WarpLoop<F>(corrected: seq<Motion>, maxFrames: int, video: seq<F>) returns (warped: seq<(F, Motion)>)
    requires WarpSteps(maxFrames, |video|) <= |corrected|
    ensures |warped| == WarpSteps(maxFrames, |video|)
    ensures forall k :: 0 <= k < |warped| ==> warped[k] == (video[k], corrected[k])
  {
    warped := [];
    var k := 0;
    while k < maxFrames - 1
      invariant 0 <= k <= WarpSteps(maxFrames, |video|)
      invariant |warped| == k
      invariant forall l :: 0 <= l < k ==> warped[l] == (video[l], corrected[l])
      decreases maxFrames - 1 - k
    {
      if k >= |video| {
        break;
      }
      var cur := video[k];
      warped := warped + [(cur, corrected[k])];
      k := k + 1;
    }
  }

  /** Steps 2 to 4 as the loops compute them. */
  method StabilizeLoops(transforms: seq<Motion>, radius: nat) returns (corrected: seq<Motion>)
    requires |transforms| < SizeLimit
    requires radius <= RadiusLimit
    ensures |corrected| == |transforms|
    ensures corrected == Stabilize(transforms, radius)
  {
    var trajectory := AccumulateLoop(transforms);
    assert trajectory == Accumulate(transforms);
    var smoothed := SmoothLoop(trajectory, radius);
    assert smoothed == Smooth(trajectory, radius);
    corrected := RederiveLoop(transforms, smoothed);
  }

  /** `stb-shake-sample`: pass 1, steps 2 to 4 with radius 30, then the warp loop over
      the input video read again from its first frame. Its lookups stay in bounds only
      when enough motions were recorded, which the caller has to guarantee. */
  method SampleProgram<F>(estimate: (F, F) -> Option<Motion>, frames: seq<F>, maxFrames: int)
    returns (warped: seq<(F, Motion)>)
    requires 1 <= |frames| < SizeLimit
    requires WarpSteps(maxFrames, |frames|) <= |Record(estimate, frames).transforms|
    ensures |warped| == WarpSteps(maxFrames, |frames|)
    ensures forall k :: 0 <= k < |warped| ==>
      warped[k] == (frames[k], Stabilize(Record(estimate, frames).transforms, SampleRadius)[k])
  {
    var recording := Record(estimate, frames);
    var corrected := StabilizeLoops(recording.transforms, SampleRadius);
    warped := WarpLoop(corrected, maxFrames, frames);
  }

  /** `videostb-camshake`: pass 1 writes each successfully estimated frame to a
      temporary video, steps 2 to 4 run with radius 50, and the final pass warps the
      temporary video. Every lookup is in bounds whatever the estimator does and
      whatever frame count the container reports. */
  method CamshakeProgram<F>(estimate: (F, F) -> Option<Motion>, frames: seq<F>, maxFrames: int)
    returns (warped: seq<(F, Motion)>)
    requires 1 <= |frames| < SizeLimit
    ensures |warped| == WarpSteps(maxFrames, |Record(estimate, frames).transforms|)
    ensures |warped| <= |Record(estimate, frames).transforms|
    ensures forall k :: 0 <= k < |warped| ==> Record(estimate, frames).kept[k] < |frames|
    ensures forall k :: 0 <= k < |warped| ==>
      warped[k] == (frames[Record(estimate, frames).kept[k]],
                    Stabilize(Record(estimate, frames).transforms, CamshakeRadius)[k])
  {
    var recording := Record(estimate, frames);
    TempVideoMatchesTransforms(estimate, frames);
    var temp := TempVideo(frames, recording.kept);
    var corrected := StabilizeLoops(recording.transforms, CamshakeRadius);
    warped := WarpLoop(corrected, maxFrames, temp);
  }

  /** When the container reports the true frame count, the warp loop of
      `stb-shake-sample` stays in bounds exactly when no estimate failed. */
  lemma SampleWarpInBoundsIff<F>(estimate: (F, F) -> Option<Motion>, frames: seq<F>)
    requires |frames| >= 1
    ensures WarpSteps(|frames|, |frames|) <= |Record(estimate, frames).transforms|
        <==> EveryPairEstimated(estimate, frames, 1)
  {
    FullRecordIff(estimate, frames);
  }

  /** A three-frame video whose first estimate fails: one motion is recorded, yet the
      warp loop of `stb-shake-sample` looks up index 1. */
  lemma SampleWarpOverrun()
    ensures var estimate := (p: int, q: int) => if p == 0 && q == 1 then None else Some(Motion(0.0, 0.0, 0.0));
      WarpSteps(3, 3) > |Record(estimate, [0, 1, 2]).transforms|
  {
    var estimate := (p: int, q: int) => if p == 0 && q == 1 then None else Some(Motion(0.0, 0.0, 0.0));
    var frames := [0, 1, 2];
    assert !estimate(frames[0], frames[1]).Some?;
    SampleWarpInBoundsIff(estimate, frames);
  }

  /** The final pass of `videostb-camshake` reads the temporary video, which holds one
      frame per recorded motion, so its lookups stay in bounds for every estimator and
      every reported frame count. */
  lemma CamshakeWarpInBounds<F>(estimate: (F, F) -> Option<Motion>, frames: seq<F>, maxFrames: int)
    requires |frames| >= 1
    ensures var r := Record(estimate, frames);
      (forall k :: 0 <= k < |r.kept| ==> r.kept[k] < |frames|)
      && WarpSteps(maxFrames, |TempVideo(frames, r.kept)|) <= |Stabilize(r.transforms, CamshakeRadius)|
  {
    TempVideoMatchesTransforms(estimate, frames);
  }
}

=== FILE: recording.dfy ===
/** Pass 1 of both programs: walk the video, estimate the rigid motion from the frame
    held in `prev` to each new frame `cur`, and record the estimates that succeed.

    The feature tracker and the rigid-transform estimator are library calls, so the
    estimate for a pair of frames is a parameter: a total function that yields a motion
    or reports that no transform was found. The frames themselves are opaque values of
    a type parameter `F`. On failure the loop `continue`s: nothing is recorded and
    `prev` keeps its frame. On success the motion is recorded and `cur` becomes `prev`;
    `videostb-camshake` also writes `cur` to its temporary video at that moment. */
module Recording {

  import opened Wrappers
  import opened Geometry

  /** The values `dx = dy = da = -1` that `videostb-camshake` holds before an estimate
      is decomposed; they are never pushed on the failure path. */
  const Unset: Motion := Motion(-1.0, -1.0, -1.0)

  /** What pass 1 leaves behind: the recorded motions and, for each, the index of the
      frame `cur` it ends at (the frames written to the temporary video). */
  datatype Pass1 = Pass1(transforms: seq<Motion>, kept: seq<nat>)

  /** The frame held in `prev` while the frames after the k-th kept frame are visited:
      the first frame before anything is kept, afterwards the last kept frame. */
  function Anchor(kept: seq<nat>, first: nat, k: nat): nat
    requires k <= |kept|
  {
    if k == 0 then first else kept[k - 1]
  }

  /** The loop from frame `cur` on, with frame `prev` held as the previous frame. Reaching
      the end of the video (`cur.data == NULL`) ends the loop. */
  function RecordFrom<F>(estimate: (F, F) -> Option<Motion>, frames: seq<F>, prev: nat, cur: nat): (r: Pass1)
    requires prev < cur <= |frames|
    ensures |r.transforms| == |r.kept| <= |frames| - cur
    decreases |frames| - cur
  {
    if cur == |frames| then Pass1([], [])
    else
      match estimate(frames[prev], frames[cur])
      case None => RecordFrom(estimate, frames, prev, cur + 1)
      case Some(m) =>
        var rest := RecordFrom(estimate, frames, cur, cur + 1);
        Pass1([m] + rest.transforms, [cur] + rest.kept)
  }

  /** Pass 1 over a whole video: the first frame is read into `prev` before the loop. */
  function Record<F>(estimate: (F, F) -> Option<Motion>, frames: seq<F>): Pass1
    requires |frames| >= 1
  {
    RecordFrom(estimate, frames, 0, 1)
  }

  /** The temporary video of `videostb-camshake`: the frames written during pass 1. */
  function TempVideo<F>(frames: seq<F>, kept: seq<nat>): seq<F>
    requires forall k :: 0 <= k < |kept| ==> kept[k] < |frames|
  {
    seq(|kept|, k requires 0 <= k < |kept| => frames[kept[k]])
  }

  /** The kept frames of a recording from `cur` on lie in [cur, N) in increasing order. */
  predicate KeptInOrder(kept: seq<nat>, cur: nat, n: nat)
  {
    && (forall k :: 0 <= k < |kept| ==> cur <= kept[k] < n)
    && (forall k :: 0 < k < |kept| ==> kept[k - 1] < kept[k])
  }

  /** Each recorded motion is the successful estimate from the frame then held in
      `prev` to its kept frame. */
  predicate RecordsEstimates<F>(estimate: (F, F) -> Option<Motion>, frames: seq<F>, prev: nat, r: Pass1)
  {
    && prev < |frames|
    && |r.transforms| == |r.kept|
    && (forall k :: 0 <= k < |r.kept| ==> r.kept[k] < |frames|)
    && (forall k :: 0 <= k < |r.kept| ==>
          estimate(frames[Anchor(r.kept, prev, k)], frames[r.kept[k]]) == Some(r.transforms[k]))
  }

  /** Every frame from `cur` on that is not kept failed its estimate from the frame then
      held in `prev`: the frames between two kept frames, and those after the last. */
  predicate SkipsFailures<F>(estimate: (F, F) -> Option<Motion>, frames: seq<F>, prev: nat, cur: nat, kept: seq<nat>)
  {
    forall k, c ::
      0 <= k <= |kept| && cur <= c < |frames| && Anchor(kept, prev, k) < c && (k < |kept| ==> c < kept[k])
      ==> estimate(frames[Anchor(kept, prev, k)], frames[c]).None?
  }

  /** Pass 1 keeps frames in increasing order, never the one held in `prev`. */
  lemma {:induction false} RecordFromKeptInOrder<F>(estimate: (F, F) -> Option<Motion>, frames: seq<F>, prev: nat, cur: nat)
    requires prev < cur <= |frames|
    decreases |frames| - cur
    ensures KeptInOrder(RecordFrom(estimate, frames, prev, cur).kept, cur, |frames|)
  {
    if cur < |frames| {
      var r := RecordFrom(estimate, frames, prev, cur);
      match estimate(frames[prev], frames[cur])
      case None =>
        assert r == RecordFrom(estimate, frames, prev, cur + 1);
        RecordFromKeptInOrder(estimate, frames, prev, cur + 1);
      case Some(m) =>
        var rest := RecordFrom(estimate, frames, cur, cur + 1);
        RecordFromKeptInOrder(estimate, frames, cur, cur + 1);
        assert r.kept == [cur] + rest.kept;
    }
  }

  /** Each recorded motion is a successful estimate, taken from the last kept frame (or
      the first frame) to the frame it was recorded at: `prev` advances only on success. */
  lemma RecordFromRecordsEstimates<F>(estimate: (F, F) -> Option<Motion>, frames: seq<F>, prev: nat, cur: nat)
    requires prev < cur <= |frames|
    ensures KeptInOrder(RecordFrom(estimate, frames, prev, cur).kept, cur, |frames|)
    ensures RecordsEstimates(estimate, frames, prev, RecordFrom(estimate, frames, prev, cur))
  {
    RecordFromKeptInOrder(estimate, frames, prev, cur);
    EstimatesRecordedFrom(estimate, frames, prev, cur);
  }

  /** The induction behind `RecordFromRecordsEstimates`, one frame at a time. */
  lemma {:induction false} EstimatesRecordedFrom<F>(estimate: (F, F) -> Option<Motion>, frames: seq<F>, prev: nat, cur: nat)
    requires prev < cur <= |frames|
    decreases |frames| - cur
    ensures RecordsEstimates(estimate, frames, prev, RecordFrom(estimate, frames, prev, cur))
  {
    var r := RecordFrom(estimate, frames, prev, cur);
    if cur < |frames| {
      var e := estimate(frames[prev], frames[cur]);
      if e.None? {
        EstimatesRecordedFrom(estimate, frames, prev, cur + 1);
        assert r == RecordFrom(estimate, frames, prev, cur + 1);
      } else {
        var rest := RecordFrom(estimate, frames, cur, cur + 1);
        EstimatesRecordedFrom(estimate, frames, cur, cur + 1);
        RecordsEstimatesExtend(estimate, frames, prev, cur, e.value, rest);
        assert r == Pass1([e.value] + rest.transforms, [cur] + rest.kept);
      }
    } else {
      assert r.kept == [];
    }
  }

  /** A successful estimate from `prev` to `cur`, put in front of a recording that starts
      with `cur` held in `prev`, keeps every recorded motion a successful estimate. */
  lemma RecordsEstimatesExtend<F>(estimate: (F, F) -> Option<Motion>, frames: seq<F>, prev: nat, cur: nat, m: Motion, rest: Pass1)
    requires prev < cur < |frames|
    requires estimate(frames[prev], frames[cur]) == Some(m)
    requires RecordsEstimates(estimate, frames, cur, rest)
    ensures RecordsEstimates(estimate, frames, prev, Pass1([m] + rest.transforms, [cur] + rest.kept))
  {
    var r := Pass1([m] + rest.transforms, [cur] + rest.kept);
    forall k | 0 <= k < |r.kept|
      ensures estimate(frames[Anchor(r.kept, prev, k)], frames[r.kept[k]]) == Some(r.transforms[k])
    {
      if k == 0 {
        assert Anchor(r.kept, prev, 0) == prev && r.kept[0] == cur && r.transforms[0] == m;
      } else {
        ShiftedEstimate(estimate, frames, prev, cur, m, rest, k);
      }
    }
  }

  /** Entry k of the extended recording is entry k - 1 of `rest`, anchored at the same frame. */
  lemma ShiftedEstimate<F>(estimate: (F, F) -> Option<Motion>, frames: seq<F>, prev: nat, cur: nat, m: Motion, rest: Pass1, k: nat)
    requires prev < cur < |frames|
    requires |rest.transforms| == |rest.kept|
    requires 1 <= k <= |rest.kept|
    requires Anchor(rest.kept, cur, k - 1) < |frames| && rest.kept[k - 1] < |frames|
    requires estimate(frames[Anchor(rest.kept, cur, k - 1)], frames[rest.kept[k - 1]]) == Some(rest.transforms[k - 1])
    ensures var r := Pass1([m] + rest.transforms, [cur] + rest.kept);
      Anchor(r.kept, prev, k) < |frames| && r.kept[k] < |frames|
      && estimate(frames[Anchor(r.kept, prev, k)], frames[r.kept[k]]) == Some(r.transforms[k])
  {
    var r := Pass1([m] + rest.transforms, [cur] + rest.kept);
    assert Anchor(r.kept, prev, k) == Anchor(rest.kept, cur, k - 1);
    assert r.kept[k] == rest.kept[k - 1];
    assert r.transforms[k] == rest.transforms[k - 1];
  }

  /** A frame that is not kept is one whose estimate from the frame then held in `prev`
      failed: failures are skipped, never recorded. */
  lemma RecordFromSkipsFailures<F>(estimate: (F, F) -> Option<Motion>, frames: seq<F>, prev: nat, cur: nat)
    requires prev < cur <= |frames|
    ensures KeptInOrder(RecordFrom(estimate, frames, prev, cur).kept, cur, |frames|)
    ensures SkipsFailures(estimate, frames, prev, cur, RecordFrom(estimate, frames, prev, cur).kept)
  {
    RecordFromKeptInOrder(estimate, frames, prev, cur);
    FailuresSkippedFrom(estimate, frames, prev, cur);
  }

  /** The induction behind `RecordFromSkipsFailures`, one frame at a time. */
  lemma {:induction false} FailuresSkippedFrom<F>(estimate: (F, F) -> Option<Motion>, frames: seq<F>, prev: nat, cur: nat)
    requires prev < cur <= |frames|
    decreases |frames| - cur
    ensures SkipsFailures(estimate, frames, prev, cur, RecordFrom(estimate, frames, prev, cur).kept)
  {
    if cur < |frames| {
      var r := RecordFrom(estimate, frames, prev, cur);
      match estimate(frames[prev], frames[cur])
      case None =>
        var rest := RecordFrom(estimate, frames, prev, cur + 1);
        assert r == rest;
        FailuresSkippedFrom(estimate, frames, prev, cur + 1);
        RecordFromKeptInOrder(estimate, frames, prev, cur + 1);
        forall k, c | 0 <= k <= |r.kept| && cur <= c < |frames| && Anchor(r.kept, prev, k) < c
                      && (k < |r.kept| ==> c < r.kept[k])
          ensures estimate(frames[Anchor(r.kept, prev, k)], frames[c]).None?
        {
          assert k == 0 || cur + 1 <= r.kept[k - 1];
        }
      case Some(m) =>
        var rest := RecordFrom(estimate, frames, cur, cur + 1);
        FailuresSkippedFrom(estimate, frames, cur, cur + 1);
        RecordFromKeptInOrder(estimate, frames, cur, cur + 1);
        assert r.kept == [cur] + rest.kept;
        forall k, c | 0 <= k <= |r.kept| && cur <= c < |frames| && Anchor(r.kept, prev, k) < c
                      && (k < |r.kept| ==> c < r.kept[k])
          ensures estimate(frames[Anchor(r.kept, prev, k)], frames[c]).None?
        {
          assert k >= 1;
          assert Anchor(r.kept, prev, k) == Anchor(rest.kept, cur, k - 1);
        }
    }
  }


  /** Every pair of neighbouring frames has a successful estimate. */
  predicate EveryPairEstimated<F>(estimate: (F, F) -> Option<Motion>, frames: seq<F>, from: nat)
  {
    forall c :: from <= c < |frames| && c >= 1 ==> estimate(frames[c - 1], frames[c]).Some?
  }

  /** The loop records one motion per remaining frame exactly when every estimate
      between neighbouring frames succeeds. */
  lemma {:induction false} FullRecordFromIff<F>(estimate: (F, F) -> Option<Motion>, frames: seq<F>, cur: nat)
    requires 1 <= cur <= |frames|
    decreases |frames| - cur
    ensures |RecordFrom(estimate, frames, cur - 1, cur).transforms| == |frames| - cur
        <==> EveryPairEstimated(estimate, frames, cur)
  {
    if cur < |frames| {
      match estimate(frames[cur - 1], frames[cur])
      case None =>
        assert !estimate(frames[cur - 1], frames[cur]).Some?;
      case Some(m) =>
        FullRecordFromIff(estimate, frames, cur + 1);
    }
  }

  /** Pass 1 records N - 1 motions for a video of N frames exactly when no estimate
      fails; a single failure leaves the recorded list short. */
  lemma FullRecordIff<F>(estimate: (F, F) -> Option<Motion>, frames: seq<F>)
    requires |frames| >= 1
    ensures |Record(estimate, frames).transforms| <= |frames| - 1
    ensures |Record(estimate, frames).transforms| == |frames| - 1 <==> EveryPairEstimated(estimate, frames, 1)
  {
    FullRecordFromIff(estimate, frames, 1);
  }

  /** Only values the estimator produced are recorded: if it never yields the unset
      values -1, -1, -1, they never appear among the recorded motions. */
  lemma UnsetNeverRecorded<F>(estimate: (F, F) -> Option<Motion>, frames: seq<F>)
    requires |frames| >= 1
    requires forall p, q :: estimate(p, q) != Some(Unset)
    ensures Unset !in Record(estimate, frames).transforms
  {
    var r := Record(estimate, frames);
    assert r == RecordFrom(estimate, frames, 0, 1);
    RecordFromRecordsEstimates(estimate, frames, 0, 1);
    forall k | 0 <= k < |r.transforms|
      ensures r.transforms[k] != Unset
    {
      assert estimate(frames[Anchor(r.kept, 0, k)], frames[r.kept[k]]) == Some(r.transforms[k]);
    }
  }

  /** The temporary video holds exactly one frame per recorded motion. */
  lemma TempVideoMatchesTransforms<F>(estimate: (F, F) -> Option<Motion>, frames: seq<F>)
    requires |frames| >= 1
    ensures var r := Record(estimate, frames);
      (forall k :: 0 <= k < |r.kept| ==> r.kept[k] < |frames|)
      && |TempVideo(frames, r.kept)| == |r.transforms|
  {
    assert Record(estimate, frames) == RecordFrom(estimate, frames, 0, 1);
    RecordFromKeptInOrder(estimate, frames, 0, 1);
  }
}

=== FILE: smoothing.dfy ===
/** Steps 2 to 4 of both programs: accumulate the frame-to-frame motions into a
    trajectory, smooth the trajectory with a truncated sliding-window mean, and derive
    new frame-to-frame motions from the difference between the two.

    The functions below say what each pass computes; the methods follow the loops of the
    programs (running accumulators, the wrapped window guard, an integer count) and their
    contracts tie them to the functions. */
module Smoothing {

  import opened Geometry
  import opened Window

  /** Window radius of `stb-shake-sample`, in frames. */
  const SampleRadius: nat := 30

  /** Window radius of `videostb-camshake`, in frames. */
  const CamshakeRadius: nat := 50

  /** The trajectory: entry i is the sum of motions 0..i, starting from the origin. */
  function Accumulate(ms: seq<Motion>): seq<Pose>
  {
    seq(|ms|, i requires 0 <= i < |ms| => Total(ms[..i + 1]))
  }

  /** The smoothed trajectory: entry i is the mean of the trajectory over the window
      [max(0, i - radius), min(N - 1, i + radius)]. */
  function Smooth(t: seq<Pose>, radius: nat): seq<Pose>
  {
    seq(|t|, i requires 0 <= i < |t| => Mean(t[WindowLo(i, radius)..WindowHi(i, radius, |t|) + 1]))
  }

  /** The correction for frame i: smoothed pose minus trajectory pose. */
  function Corrections(ms: seq<Motion>, s: seq<Pose>): seq<Motion>
    requires |s| == |ms|
  {
    seq(|ms|, i requires 0 <= i < |ms| => Gap(s[i], Total(ms[..i + 1])))
  }

  /** The new frame-to-frame motions as the programs compute them: each original motion
      plus its frame's correction. */
  function Rederive(ms: seq<Motion>, s: seq<Pose>): seq<Motion>
    requires |s| == |ms|
  {
    var c := Corrections(ms, s);
    seq(|ms|, i requires 0 <= i < |ms| => Compose(ms[i], c[i]))
  }

  /** Steps 2 to 4 together: the new motions for a recorded motion list. */
  function Stabilize(ms: seq<Motion>, radius: nat): seq<Motion>
  {
    Rederive(ms, Smooth(Accumulate(ms), radius))
  }

  /** Step 2: the running-sum loop. */
  method AccumulateLoop(transforms: seq<Motion>) returns (trajectory: seq<Pose>)
    ensures |trajectory| == |transforms|
    ensures forall i :: 0 <= i < |transforms| ==> trajectory[i] == Total(transforms[..i + 1])
  {
    var a, x, y := 0.0, 0.0, 0.0;
    trajectory := [];
    var i := 0;
    while i < |transforms|
      invariant 0 <= i <= |transforms|
      invariant Pose(x, y, a) == Total(transforms[..i])
      invariant |trajectory| == i
      invariant forall k :: 0 <= k < i ==> trajectory[k] == Total(transforms[..k + 1])
    {
      TotalOfPrefix(transforms, i);
      x := x + transforms[i].dx;
      y := y + transforms[i].dy;
      a := a + transforms[i].da;
      trajectory := trajectory + [Pose(x, y, a)];
      i := i + 1;
    }
  }

  /** How far the window scan around i has got once offsets below j are visited: the
      window indices already summed are those from WindowLo up to (not including) the
      result. */
  function Reached(i: nat, j: int, radius: nat, n: nat): nat
    requires i < n
  {
    var lo := WindowLo(i, radius);
    var hi := WindowHi(i, radius, n);
    if i + j < lo then lo else if i + j > hi + 1 then hi + 1 else i + j
  }

  /** Step 3, inner loop: visit the offsets -radius..radius, summing the trajectory at
      every offset the wrapped guard admits and counting them. */
  method WindowScan(trajectory: seq<Pose>, i: nat, radius: nat) returns (sum: Pose, count: int)
    requires i < |trajectory| < SizeLimit
    requires radius <= RadiusLimit
    ensures count == WindowHi(i, radius, |trajectory|) - WindowLo(i, radius) + 1
    ensures 1 <= count <= 2 * radius + 1 <= IntMax
    ensures sum == PoseSum(trajectory[WindowLo(i, radius)..WindowHi(i, radius, |trajectory|) + 1])
  {
    var n := |trajectory|;
    var lo := WindowLo(i, radius);
    var sumX, sumY, sumA := 0.0, 0.0, 0.0;
    count := 0;
    var j: int := -(radius as int);
    while j <= radius
      invariant -(radius as int) <= j <= radius + 1
      invariant count == Reached(i, j, radius, n) - lo
      invariant Pose(sumX, sumY, sumA) == PoseSum(trajectory[lo..Reached(i, j, radius, n)])
    {
      GuardIsIndexRange(i, j, n);
      if Guard(i, j, n) {
        PoseSumOfSlice(trajectory, lo, i + j + 1);
        sumX := sumX + trajectory[i + j].x;
        sumY := sumY + trajectory[i + j].y;
        sumA := sumA + trajectory[i + j].a;
        assert count + 1 <= IntMax;
        count := count + 1;
      }
      j := j + 1;
    }
    sum := Pose(sumX, sumY, sumA);
  }

  /** Step 3: one window mean per trajectory entry. */
  method SmoothLoop(trajectory: seq<Pose>, radius: nat) returns (smoothed: seq<Pose>)
    requires |trajectory| < SizeLimit
    requires radius <= RadiusLimit
    ensures |smoothed| == |trajectory|
    ensures forall i :: 0 <= i < |trajectory| ==>
      smoothed[i] == Mean(trajectory[WindowLo(i, radius)..WindowHi(i, radius, |trajectory|) + 1])
  {
    smoothed := [];
    var i: nat := 0;
    while i < |trajectory|
      invariant i <= |trajectory|
      invariant |smoothed| == i
      invariant forall k :: 0 <= k < i ==>
        smoothed[k] == Mean(trajectory[WindowLo(k, radius)..WindowHi(k, radius, |trajectory|) + 1])
    {
      var sum, count := WindowScan(trajectory, i, radius);
      var meanA := sum.a / count as real;
      var meanX := sum.x / count as real;
      var meanY := sum.y / count as real;
      smoothed := smoothed + [Pose(meanX, meanY, meanA)];
      i := i + 1;
    }
  }

  /** Step 4: re-walk the running sum and add to each motion the gap between the
      smoothed pose and the re-accumulated pose. */
  method RederiveLoop(transforms: seq<Motion>, smoothed: seq<Pose>) returns (corrected: seq<Motion>)
    requires |smoothed| == |transforms|
    ensures |corrected| == |transforms|
    ensures forall i :: 0 <= i < |transforms| ==>
      corrected[i] == Compose(transforms[i], Gap(smoothed[i], Accumulate(transforms)[i]))
  {
    var a, x, y := 0.0, 0.0, 0.0;
    corrected := [];
    var i := 0;
    while i < |transforms|
      invariant 0 <= i <= |transforms|
      invariant Pose(x, y, a) == Total(transforms[..i])
      invariant |corrected| == i
      invariant forall k :: 0 <= k < i ==>
        corrected[k] == Compose(transforms[k], Gap(smoothed[k], Accumulate(transforms)[k]))
    {
      TotalOfPrefix(transforms, i);
      x := x + transforms[i].dx;
      y := y + transforms[i].dy;
      a := a + transforms[i].da;
      var diffX := smoothed[i].x - x;
      var diffY := smoothed[i].y - y;
      var diffA := smoothed[i].a - a;
      var dx := transforms[i].dx + diffX;
      var dy := transforms[i].dy + diffY;
      var da := transforms[i].da + diffA;
      corrected := corrected + [Motion(dx, dy, da)];
      i := i + 1;
    }
  }

  /** With radius 0 every window is the single centre frame: smoothing returns the
      trajectory and the new motions are the original motions. */
  lemma ZeroRadiusIsIdentity(ms: seq<Motion>)
    ensures Smooth(Accumulate(ms), 0) == Accumulate(ms)
    ensures Rederive(ms, Smooth(Accumulate(ms), 0)) == ms
  {
    var t := Accumulate(ms);
    forall i | 0 <= i < |t|
      ensures Smooth(t, 0)[i] == t[i]
    {
      MeanOfOne(t[i..i + 1]);
    }
    assert Smooth(t, 0) == t;
  }

  /** When the radius reaches N - 1 every window is the whole sequence, so every
      smoothed entry is the mean of the entire trajectory. */
  lemma WideRadiusFlattens(t: seq<Pose>, radius: nat)
    requires |t| >= 1
    requires radius >= |t| - 1
    ensures forall i :: 0 <= i < |t| ==> Smooth(t, radius)[i] == Mean(t)
  {
    assert t[0..|t|] == t;
  }

  /** What the new motions of the programs add up to: the running sum of the first
      i + 1 new motions is the smoothed pose i plus the corrections of all earlier
      frames. It meets the smoothed trajectory only where those corrections cancel. */
  lemma {:induction false} RederivedRunningSum(ms: seq<Motion>, s: seq<Pose>, i: nat)
    requires |s| == |ms|
    requires i < |ms|
    ensures Total(Rederive(ms, s)[..i + 1]) == Plus(s[i], Total(Corrections(ms, s)[..i]))
  {
    var r := Rederive(ms, s);
    var c := Corrections(ms, s);
    TotalOfPrefix(r, i);
    if i == 0 {
      assert r[..0] == [];
      assert c[..0] == [];
    } else {
      RederivedRunningSum(ms, s, i - 1);
      TotalOfPrefix(c, i - 1);
      TotalOfPrefix(ms, i);
    }
  }

  /** The running sum of the programs' new motions reproduces the smoothed pose i
      exactly when the corrections of the frames before i sum to zero. */
  lemma RederivedMatchesSmoothedIff(ms: seq<Motion>, s: seq<Pose>, i: nat)
    requires |s| == |ms|
    requires i < |ms|
    ensures Total(Rederive(ms, s)[..i + 1]) == s[i] <==> Total(Corrections(ms, s)[..i]) == Origin
  {
    RederivedRunningSum(ms, s, i);
  }

  /** New frame-to-frame motions whose running sum is the smoothed trajectory: the
      motion from the previous smoothed pose to the current one. */
  function RederiveExact(s: seq<Pose>): seq<Motion>
  {
    seq(|s|, i requires 0 <= i < |s| => Gap(s[i], if i == 0 then Origin else s[i - 1]))
  }

  /** The running sum of the exact new motions is the smoothed trajectory. */
  lemma {:induction false} RederiveExactTelescopes(s: seq<Pose>, i: nat)
    requires i < |s|
    ensures Total(RederiveExact(s)[..i + 1]) == s[i]
  {
    var r := RederiveExact(s);
    TotalOfPrefix(r, i);
    if i == 0 {
      assert r[..0] == [];
    } else {
      RederiveExactTelescopes(s, i - 1);
    }
  }

  /** The exact new motion differs from the programs' new motion only by the previous
      frame's correction: adding that correction back gives the programs' value. */
  lemma RederiveExactDropsPreviousCorrection(ms: seq<Motion>, s: seq<Pose>, i: nat)
    requires |s| == |ms|
    requires i < |ms|
    ensures i == 0 ==> RederiveExact(s)[i] == Rederive(ms, s)[i]
    ensures i > 0 ==> Compose(RederiveExact(s)[i], Corrections(ms, s)[i - 1]) == Rederive(ms, s)[i]
  {
    TotalOfPrefix(ms, i);
    if i == 0 {
      assert ms[..0] == [];
    }
  }

  /** The pose reached after moving by m a (real) number of times. */
  function Repeated(m: Motion, times: real): Pose
  {
    Pose(times * m.dx, times * m.dy, times * m.da)
  }

  /** Every motion of the list is m. */
  predicate AllEqual(ms: seq<Motion>, m: Motion)
  {
    forall k :: 0 <= k < |ms| ==> ms[k] == m
  }

  /** Under constant motion the trajectory is linear: entry k is m taken k + 1 times. */
  lemma {:induction false} ConstantMotionTrajectory(ms: seq<Motion>, m: Motion, n: nat)
    requires AllEqual(ms, m)
    requires n <= |ms|
    ensures Total(ms[..n]) == Repeated(m, n as real)
  {
    if n == 0 {
      assert ms[..0] == [];
    } else {
      var a := (n - 1) as real;
      assert Total(ms[..n - 1]) == Repeated(m, a) by {
        ConstantMotionTrajectory(ms, m, n - 1);
      }
      assert Total(ms[..n]) == Advance(Total(ms[..n - 1]), m) by {
        TotalOfPrefix(ms, n - 1);
      }
      assert Advance(Repeated(m, a), m) == Repeated(m, n as real) by {
        RepeatedStep(m, a);
        assert a + 1.0 == n as real;
      }
    }
  }

  /** The sum of k + 1 over k in [lo, e): how many times m a linear trajectory
      accumulates over that window. */
  function Triangle(lo: nat, e: nat): nat
    requires lo <= e
    decreases e - lo
  {
    if e == lo then 0 else Triangle(lo, e - 1) + e
  }

  /** The sum of a linear trajectory over [lo, e) is m taken Triangle(lo, e) times. */
  lemma {:induction false} LinearWindowSum(t: seq<Pose>, m: Motion, lo: nat, e: nat)
    requires forall k :: 0 <= k < |t| ==> t[k] == Repeated(m, (k + 1) as real)
    requires lo <= e <= |t|
    decreases e - lo
    ensures PoseSum(t[lo..e]) == Repeated(m, Triangle(lo, e) as real)
  {
    if e == lo {
      assert t[lo..e] == [];
    } else {
      var before := Triangle(lo, e - 1);
      assert PoseSum(t[lo..e - 1]) == Repeated(m, before as real) by {
        LinearWindowSum(t, m, lo, e - 1);
      }
      assert PoseSum(t[lo..e]) == Plus(PoseSum(t[lo..e - 1]), t[e - 1]) by {
        PoseSumOfSlice(t, lo, e);
      }
      assert t[e - 1] == Repeated(m, e as real);
      assert Plus(Repeated(m, before as real), Repeated(m, e as real)) == Repeated(m, Triangle(lo, e) as real) by {
        RepeatedAdds(m, before as real, e as real);
        assert Triangle(lo, e) == before + e;
      }
    }
  }

  /** Closed form of the window count: twice Triangle(lo, e) is (e - lo)(lo + e + 1). */
  lemma {:induction false} TriangleClosed(lo: nat, e: nat)
    requires lo <= e
    decreases e - lo
    ensures 2 * Triangle(lo, e) == (e - lo) * (lo + e + 1)
  {
    if e > lo {
      TriangleClosed(lo, e - 1);
      assert (e - 1 - lo) * (lo + e) + 2 * e == (e - lo) * (lo + e + 1) by {
        assert (e - 1 - lo) * (lo + e) == (e - lo) * (lo + e) - (lo + e);
        assert (e - lo) * (lo + e + 1) == (e - lo) * (lo + e) + (e - lo);
      }
    }
  }

  /** For the full window centred on i, Triangle is the width times i + 1. */
  lemma CentredTriangle(i: nat, radius: nat)
    requires radius <= i
    ensures Triangle(i - radius, i + radius + 1) == (2 * radius + 1) * (i + 1)
  {
    var lo, e, w := i - radius, i + radius + 1, 2 * radius + 1;
    TriangleClosed(lo, e);
    assert e - lo == w && lo + e + 1 == 2 * (i + 1);
    assert 2 * Triangle(lo, e) == w * (2 * (i + 1));
    assert w * (2 * (i + 1)) == 2 * (w * (i + 1));
  }

  /** Averaging m taken w * c times over w frames gives m taken c times. */
  lemma RepeatedMean(m: Motion, w: int, c: int)
    requires w > 0
    ensures Divide(Repeated(m, (w * c) as real), w) == Repeated(m, c as real)
  {
    var wr, cr := w as real, c as real;
    assert (w * c) as real == wr * cr;
    assert wr * cr * m.dx / wr == cr * m.dx;
    assert wr * cr * m.dy / wr == cr * m.dy;
    assert wr * cr * m.da / wr == cr * m.da;
  }

  /** Moving by m a times and then once more is moving by m a + 1 times. */
  lemma RepeatedStep(m: Motion, a: real)
    ensures Advance(Repeated(m, a), m) == Repeated(m, a + 1.0)
  {
    assert a * m.dx + m.dx == (a + 1.0) * m.dx;
    assert a * m.dy + m.dy == (a + 1.0) * m.dy;
    assert a * m.da + m.da == (a + 1.0) * m.da;
  }

  /** Moving by m a times and then b times is moving by m a + b times. */
  lemma RepeatedAdds(m: Motion, a: real, b: real)
    ensures Plus(Repeated(m, a), Repeated(m, b)) == Repeated(m, a + b)
  {
    assert a * m.dx + b * m.dx == (a + b) * m.dx;
    assert a * m.dy + b * m.dy == (a + b) * m.dy;
    assert a * m.da + b * m.da == (a + b) * m.da;
  }

  /** Under constant motion, a frame whose whole window lies inside the sequence is left
      where it is: its smoothed pose is its trajectory pose and its new motion is the
      original one. Frames nearer the ends than the radius see a truncated window. */
  lemma ConstantMotionInteriorUnchanged(ms: seq<Motion>, m: Motion, radius: nat, i: nat)
    requires AllEqual(ms, m)
    requires radius <= i && i + radius < |ms|
    ensures Smooth(Accumulate(ms), radius)[i] == Accumulate(ms)[i]
    ensures Stabilize(ms, radius)[i] == m
  {
    var t := Accumulate(ms);
    forall k | 0 <= k < |t|
      ensures t[k] == Repeated(m, (k + 1) as real)
    {
      ConstantMotionTrajectory(ms, m, k + 1);
    }
    var lo, e := i - radius, i + radius + 1;
    assert WindowLo(i, radius) == lo && WindowHi(i, radius, |t|) + 1 == e;
    LinearWindowSum(t, m, lo, e);
    var width := 2 * radius + 1;
    CentredTriangle(i, radius);
    assert |t[lo..e]| == width;
    RepeatedMean(m, width, i + 1);
    assert Smooth(t, radius)[i] == Mean(t[lo..e]);
  }

  /** The three-frame example: unit motion along x. */
  function UnitSteps(): seq<Motion>
  {
    [Motion(1.0, 0.0, 0.0), Motion(1.0, 0.0, 0.0), Motion(1.0, 0.0, 0.0)]
  }

  /** The smoothed trajectory of three unit steps with radius 1. */
  function SmoothedUnitSteps(): seq<Pose>
  {
    [Pose(1.5, 0.0, 0.0), Pose(2.0, 0.0, 0.0), Pose(2.5, 0.0, 0.0)]
  }

  /** Accumulating three unit steps gives the trajectory 1, 2, 3. */
  lemma UnitStepsTrajectory()
    ensures Accumulate(UnitSteps()) == [Pose(1.0, 0.0, 0.0), Pose(2.0, 0.0, 0.0), Pose(3.0, 0.0, 0.0)]
  {
    var ms := UnitSteps();
    TotalOfPrefix(ms, 0);
    TotalOfPrefix(ms, 1);
    TotalOfPrefix(ms, 2);
    assert ms[..0] == [];
  }

  /** With radius 1 the trajectory 1, 2, 3 smooths to 1.5, 2, 2.5: the end windows are
      truncated to two frames. */
  lemma UnitStepsSmoothed()
    ensures Smooth([Pose(1.0, 0.0, 0.0), Pose(2.0, 0.0, 0.0), Pose(3.0, 0.0, 0.0)], 1)
         == [Pose(1.5, 0.0, 0.0), Pose(2.0, 0.0, 0.0), Pose(2.5, 0.0, 0.0)]
  {
    var p1, p2, p3 := Pose(1.0, 0.0, 0.0), Pose(2.0, 0.0, 0.0), Pose(3.0, 0.0, 0.0);
    var t := [p1, p2, p3];
    assert t[0..2] == [p1, p2];
    assert t[0..3] == [p1, p2, p3];
    assert t[1..3] == [p2, p3];
    MeanOfPair(p1, p2);
    MeanOfPair(p2, p3);
    MeanOfTriple(p1, p2, p3);
    var sm := Smooth(t, 1);
    assert sm[0] == Mean(t[0..2]);
    assert sm[1] == Mean(t[0..3]);
    assert sm[2] == Mean(t[1..3]);
  }

  /** The mean of two poses is their sum halved. */
  lemma MeanOfPair(p: Pose, q: Pose)
    ensures Mean([p, q]) == Divide(Plus(p, q), 2)
  {
    assert [p, q][..1] == [p];
    assert [p][..0] == [];
    assert PoseSum([p]) == Plus(Origin, p);
    assert PoseSum([p, q]) == Plus(PoseSum([p]), q);
  }

  /** The mean of three poses is their sum divided by three. */
  lemma MeanOfTriple(p: Pose, q: Pose, r: Pose)
    ensures Mean([p, q, r]) == Divide(Plus(Plus(p, q), r), 3)
  {
    assert [p, q, r][..2] == [p, q];
    assert [p, q][..1] == [p];
    assert [p][..0] == [];
    assert PoseSum([p]) == Plus(Origin, p);
    assert PoseSum([p, q]) == Plus(PoseSum([p]), q);
    assert PoseSum([p, q, r]) == Plus(PoseSum([p, q]), r);
  }

  /** For three unit steps smoothed with radius 1 the corrections are 0.5, 0 and -0.5:
      the first frame is pushed forward, the last one held back. */
  lemma UnitStepsCorrections()
    ensures Corrections(UnitSteps(), SmoothedUnitSteps()) == [Motion(0.5, 0.0, 0.0), Motion(0.0, 0.0, 0.0), Motion(-0.5, 0.0, 0.0)]
  {
    UnitStepsTrajectory();
    CorrectionsOfThree(UnitSteps(), SmoothedUnitSteps(), Accumulate(UnitSteps()));
  }

  /** The corrections of a three-frame recording, one gap per frame. */
  lemma CorrectionsOfThree(ms: seq<Motion>, s: seq<Pose>, t: seq<Pose>)
    requires |ms| == |s| == 3
    requires t == Accumulate(ms)
    ensures Corrections(ms, s) == [Gap(s[0], t[0]), Gap(s[1], t[1]), Gap(s[2], t[2])]
  {
  }

  /** The running sum at frame 1 of the programs' new motions for three unit steps and
      the smoothed trajectory 1.5, 2, 2.5 is 2.5. */
  lemma UnitStepsRunningSum()
    ensures Total(Rederive(UnitSteps(), SmoothedUnitSteps())[..2]) == Pose(2.5, 0.0, 0.0)
  {
    UnitStepsCorrections();
    SecondRunningSum(UnitSteps(), SmoothedUnitSteps());
  }

  /** The running sum of the first two new motions: smoothed pose 1 moved by the
      correction of frame 0. */
  lemma SecondRunningSum(ms: seq<Motion>, s: seq<Pose>)
    requires |s| == |ms| >= 2
    ensures Total(Rederive(ms, s)[..2]) == Advance(s[1], Corrections(ms, s)[0])
  {
    var c := Corrections(ms, s);
    RederivedRunningSum(ms, s, 1);
    TotalOfOne(c[..1]);
  }

  /** The counterexample to "the new motions add up to the smoothed trajectory": for
      three unit steps and radius 1 the running sum of the programs' new motions at
      frame 1 is 2.5 while the smoothed pose there is 2. */
  lemma UnitStepsRederivedDrift()
    ensures Total(Rederive(UnitSteps(), Smooth(Accumulate(UnitSteps()), 1))[..2]) == Pose(2.5, 0.0, 0.0)
    ensures Smooth(Accumulate(UnitSteps()), 1)[1] == Pose(2.0, 0.0, 0.0)
  {
    UnitStepsTrajectory();
    UnitStepsSmoothed();
    UnitStepsRunningSum();
  }
}

=== FILE: window.dfy ===
/** The averaging window of the smoothing pass and the guard that selects it.

    The guard is written `i+j >= 0 && i+j < trajectory.size()` with `size_t i` and
    `int j`. By the usual arithmetic conversions `j` becomes a 64-bit unsigned value and
    the sum wraps modulo 2^64, so `>= 0` always holds and a negative offset becomes a huge
    value that fails `< size()`. This module shows the guard nevertheless selects exactly
    the window [max(0, i-R), min(N-1, i+R)]. */
module Window {

  /** `size_t` is a 64-bit unsigned type. */
  const SizeTModulus: int := 0x1_0000_0000_0000_0000

  /** Any container size is below 2^63. */
  const SizeLimit: int := 0x8000_0000_0000_0000

  /** Range of the 32-bit `int` loop variable `j`. */
  const IntMin: int := -0x8000_0000
  const IntMax: int := 0x7fff_ffff

  /** The largest radius whose full window, 2 * radius + 1 frames, still fits the 32-bit
      `int` counter of the window loop; a wider window would overflow `count`, which is
      undefined behaviour in the programs. */
  const RadiusLimit: int := 0x3fff_ffff

  /** Integral conversion to `size_t`: reduction modulo 2^64. */
  function ToSizeT(v: int): nat
  {
    v % SizeTModulus
  }

  /** `i + j` with `size_t i` and `int j`: `j` is converted, then the addition wraps. */
  function WrappedSum(i: nat, j: int): nat
  {
    ToSizeT(i + ToSizeT(j))
  }

  /** The inner-loop guard exactly as written, on the wrapped sum. */
  predicate Guard(i: nat, j: int, n: nat)
  {
    WrappedSum(i, j) >= 0 && WrappedSum(i, j) < n
  }

  /** First index of the window around i: max(0, i - radius). */
  function WindowLo(i: nat, radius: nat): nat
  {
    if i >= radius then i - radius else 0
  }

  /** Last index of the window around i: min(n - 1, i + radius). */
  function WindowHi(i: nat, radius: nat, n: nat): nat
    requires i < n
  {
    if i + radius <= n - 1 then i + radius else n - 1
  }

  /** Membership of index k in the window around i. */
  predicate InWindow(i: nat, radius: nat, n: nat, k: int)
    requires i < n
  {
    WindowLo(i, radius) <= k <= WindowHi(i, radius, n)
  }

  /** The wrapped guard holds exactly when `i + j` is an in-range index. */
  lemma GuardIsIndexRange(i: nat, j: int, n: nat)
    requires i < n < SizeLimit
    requires IntMin <= j <= IntMax
    ensures Guard(i, j, n) <==> 0 <= i + j < n
  {
    if j >= 0 {
      assert ToSizeT(j) == j;
      assert ToSizeT(i + j) == i + j;
    } else {
      assert ToSizeT(j) == j + SizeTModulus;
      if i + j >= 0 {
        assert ToSizeT(i + j + SizeTModulus) == i + j;
      } else {
        assert ToSizeT(i + j + SizeTModulus) == i + j + SizeTModulus;
      }
    }
  }

  /** The offsets -radius..radius that pass the wrapped guard address exactly the
      indices of the truncated window. */
  lemma GuardSelectsWindow(i: nat, radius: nat, n: nat)
    requires i < n < SizeLimit
    requires radius <= IntMax
    ensures (set j: int | -(radius as int) <= j <= radius && Guard(i, j, n) :: i + j)
         == (set k: int | 0 <= k < n && InWindow(i, radius, n, k))
  {
    var selected := set j: int | -(radius as int) <= j <= radius && Guard(i, j, n) :: i + j;
    var window := set k: int | 0 <= k < n && InWindow(i, radius, n, k);
    forall k | k in selected
      ensures k in window
    {
      var j :| -(radius as int) <= j <= radius && Guard(i, j, n) && k == i + j;
      GuardIsIndexRange(i, j, n);
    }
    forall k | k in window
      ensures k in selected
    {
      GuardIsIndexRange(i, k - i, n);
      assert i + (k - i) == k;
    }
  }
}

=== FILE: wrappers.dfy ===
/** Optional values: the result of the rigid-transform estimator for one frame pair,
    which either yields a motion or reports that no transform was found. */
module Wrappers {

  datatype Option<+T> = None | Some(value: T)
}
